=== FILE: README.md ===
# Fixed-window rate limiter: a Dafny model

This project models the fixed-window rate limiter of the `poc-redis-gcra` demo:
the vendored `express-rate-limit` middleware and its in-memory hit-count store.

- **MemoryStore** (`memory_store.dfy`) is the in-memory store. It keeps one hit
  counter per client key and one reset time shared by all keys. `init`,
  `increment`, `decrement`, `resetKey` and `resetAll` are pure functions from
  the old store state to the new one. The periodic sweep is the `resetAll`
  operation, issued by whoever drives the model.
- **Options** (`options.dfy`) is the option parser. It drops `undefined`
  options, lays the rest over the defaults, picks the store (a fresh in-memory
  store unless one is supplied), wraps a legacy callback store, and rejects a
  store without the store interface (the source's `TypeError`).
- **Middleware** (`middleware.dfy`) handles one request. A skipped request is
  passed on untouched. Any other request increments its key once. The model then
  computes `remaining`, sets the `X-RateLimit-*`, `RateLimit-*` and
  `Retry-After` headers (none once the headers are sent), fires the one-shot
  limit-reached notification, and either passes the request on or calls the
  rejection handler.
- **DecrementLatch** (`decrement_latch.dfy`) gives back the hit of a request
  that should not count. Under `skipFailedRequests` or `skipSuccessfulRequests`,
  listeners on the response's `finish`, `close` and `error` signals call
  `decrement` through a latch. The latch lets at most one decrement reach the
  store per request.
- **JsValues** and **Wrappers** are support modules. JsValues holds the JavaScript
  semantics the parser relies on: `typeof`, property reads, truthiness and `??`.
  Wrappers holds `Option` and `Result`.

Modelling choices:
- Time is the integer parameter `now`, in milliseconds since the epoch. A `Date`
  is its millisecond value.
- JavaScript numbers are integers. `Math.ceil(x / 1000)` is `CeilSeconds`, so
  negative numbers round toward positive infinity as in JavaScript.
- A JavaScript object is a `map<string, JsValue>`. A class instance is an
  `Object` value whose methods are `Function` values.
- The quota `max` reaches the middleware already resolved to an integer.
- A response is a `headersSent` flag plus a header map. `setHeader` overwrites by
  name, with names compared exactly (see "Left out" on case folding).
- A counter is an `int`, not a `nat`. This lets the model follow `decrement`'s
  truthiness test (`current != 0`) exactly, so "no counter goes negative" is
  proved as an invariant (`MemoryStore.Valid`).

## Model

| member | source | states |
|---|---|---|
| MemoryStore.Init | poc-redis-gcra/express-rate-limit/memory-store.js:28-34 | the store takes the window length from the options, has no counters, and its reset time is one window after `now` |
| MemoryStore.Increment | poc-redis-gcra/express-rate-limit/memory-store.js:53-61 | the reported total is the old count (0 when absent) plus one and is what the key now holds; the reset time is reported and unchanged; every other key is unchanged; counts stay non-negative |
| MemoryStore.Decrement | poc-redis-gcra/express-rate-limit/memory-store.js:69-74 | a present, non-zero count drops by exactly one; an absent or zero count leaves the store as it was; other keys are unchanged; a non-negative store stays non-negative |
| MemoryStore.ResetKey | poc-redis-gcra/express-rate-limit/memory-store.js:82-84 | the key is gone, every other key keeps its counter, the reset time is unchanged |
| MemoryStore.ResetAll | poc-redis-gcra/express-rate-limit/memory-store.js:90-93 | every counter is cleared and the next reset is one window after `now` |
| MemoryStore.NextResetTime | poc-redis-gcra/express-rate-limit/memory-store.js:12-16 | the next reset lies exactly one window after `now`, so later than `now` for a positive window |
| MemoryStore.ResetKeyIdempotent | poc-redis-gcra/express-rate-limit/memory-store.js:82-84 | resetting a key twice equals resetting it once |
| MemoryStore.ResetKeyUntouched | poc-redis-gcra/express-rate-limit/memory-store.js:82-84 | resetting a key that was never hit is a no-op |
| MemoryStore.FreshCounterStartsAtOne | poc-redis-gcra/express-rate-limit/memory-store.js:28-93 | the first increment after `init`, `resetKey` or `resetAll` reports one hit |
| MemoryStore.DecrementUndoesIncrement | poc-redis-gcra/express-rate-limit/memory-store.js:53-74 | on a non-negative store, a decrement after an increment restores the key's count and touches nothing else |
| MemoryStore.IncrementTimesCount | poc-redis-gcra/express-rate-limit/memory-store.js:55-56 | n increments add exactly n to the key and change nothing else |
| MemoryStore.IncrementTimesFromEmpty | poc-redis-gcra/express-rate-limit/memory-store.js:28-61 | from a freshly initialised store, n increments of a key leave its count at n |
| MemoryStore.ApplyKeepsValid | poc-redis-gcra/express-rate-limit/memory-store.js:53-93 | no sequence of store operations makes any counter negative |
| MemoryStore.ApplyCountsIncrements | poc-redis-gcra/express-rate-limit/memory-store.js:53-93 | while nothing decrements or resets a key, its count grows by exactly its number of increments |
| MemoryStore.WindowCountsHitsSinceReset | poc-redis-gcra/express-rate-limit/memory-store.js:35-42 | after the key's reset or the periodic full reset, the key's count equals the increments issued since |
| Options.IsLegacyStore | poc-redis-gcra/express-rate-limit/lib.js:11-15 | a store is legacy exactly when `incr` is a function and `increment` is not, so a legacy store never passes the store-interface check unwrapped |
| Options.IsValidStore | poc-redis-gcra/express-rate-limit/lib.js:109-118 | a store passes exactly when `increment`, `decrement` and `resetKey` are functions and `resetAll` and `init` are each absent or a function; only an object can pass |
| Options.PromisifyStore | poc-redis-gcra/express-rate-limit/lib.js:11-51 | a store that is not legacy (legacy means `incr` is a function and `increment` is not) is returned unchanged; a legacy one becomes a store with the store interface; the result is never legacy |
| Options.BuiltInStoresValid | poc-redis-gcra/express-rate-limit/lib.js:30-51 | the fresh in-memory store and the promisified wrapper both pass the store-interface check and are not legacy |
| Options.OmitUndefinedOptions | poc-redis-gcra/express-rate-limit/lib.js:264-274 | a key is kept exactly when its value is not `undefined`, and kept values are unchanged |
| Options.OmitUndefinedIsInvisible | poc-redis-gcra/express-rate-limit/lib.js:264-274 | every property read of the filtered options equals the read of the options as given; no kept value is `undefined`; omitting twice equals omitting once |
| Options.Defaults | poc-redis-gcra/express-rate-limit/lib.js:69-100 | the defaults hold no `store`; `legacyHeaders` is the caller's `headers` unless nullish, else `true`; `standardHeaders` is the caller's `draft_polli_ratelimit_headers` unless nullish, else `false`; every other default is the fixed one (60000 ms window, quota 5, status 429, both skip switches off, ...) |
| Options.ChosenStore | poc-redis-gcra/express-rate-limit/lib.js:103-107 | a nullish store option yields a fresh in-memory store; a non-legacy store is kept; a legacy one is wrapped |
| Options.Assign | poc-redis-gcra/express-rate-limit/lib.js:67-108 | the merged object has the keys of all three sources, and a later source wins for every key |
| Options.Configure | poc-redis-gcra/express-rate-limit/lib.js:60-108 | the configuration's keys are the defaults, `store` and the caller's defined options; every option other than `store` reads as the caller's defined value, else the default; the store is chosen as above |
| Options.ParseOptions | poc-redis-gcra/express-rate-limit/lib.js:109-119 | parsing succeeds exactly when the store option is accepted (`StoreAccepted`), so it fails with the store `TypeError` exactly when a non-nullish, non-legacy store lacks `increment`, `decrement` or `resetKey` as functions, or has a non-function `resetAll` or `init`; a successful configuration's store passes the check; no store option yields the in-memory store |
| Options.SameReadsSameParse | poc-redis-gcra/express-rate-limit/lib.js:60-119 | two option objects with the same property reads parse to the same result |
| Options.UndefinedOptionIsAbsent | poc-redis-gcra/express-rate-limit/lib.js:62-64 | passing `undefined` for an option parses exactly like not passing it, and parsing the options with their `undefined` entries dropped gives the same result as parsing them as given |
| Options.ParsedOption | poc-redis-gcra/express-rate-limit/lib.js:67-108 | reading an option of the parsed configuration yields the caller's defined value, else the default |
| Options.DefaultQuotaAndStore | poc-redis-gcra/express-rate-limit/lib.js:67-106 | with no options, `max` is 5 and the store is a fresh in-memory store |
| Options.SettingsOf | poc-redis-gcra/express-rate-limit/lib.js:182-203 | settings exist exactly when the window length is a number, and then carry it; the header switches and the two skip switches the middleware tests are the truthiness of the configured values |
| Options.ParsedSettings | poc-redis-gcra/express-rate-limit/lib.js:67-108 | the settings of a parsed configuration are those of the effective option values |
| Options.EffectiveDefaults | poc-redis-gcra/express-rate-limit/lib.js:69-78 | with no options: a 60000 ms window, status 429, legacy headers on, standardized headers off, no compensation |
| Options.DefaultSettings | poc-redis-gcra/express-rate-limit/lib.js:67-108 | parsing no options succeeds, with settings of a 60000 ms window, legacy headers only and no compensation |
| Options.EffectivePublicLimiterHeaders | poc-redis-gcra/api/app.js:13-18 | the demo's public limiter options switch on both header families; the legacy one comes from the default |
| Options.EffectivePublicLimiter | poc-redis-gcra/api/app.js:13-18 | the demo's public limiter options give a 30000 ms window, the default status 429 and no compensation |
| Options.PublicLimiterParsed | poc-redis-gcra/api/app.js:13-18 | parsing the demo's public limiter options succeeds, with settings of a 30000 ms window and both header families |
| Options.PublicLimiterQuota | poc-redis-gcra/api/app.js:13-18 | parsing the demo's public limiter options succeeds with a quota of 60 |
| Middleware.CeilSeconds | poc-redis-gcra/express-rate-limit/lib.js:188 | the result is the least whole number of seconds covering the milliseconds (`Math.ceil(ms / 1000)`) |
| Middleware.SecondsUntil | poc-redis-gcra/express-rate-limit/lib.js:196-198 | `RateLimit-Reset` is never negative; it covers the time until the reset and is the least such value; it is 0 once the reset time has passed |
| Middleware.Remaining | poc-redis-gcra/express-rate-limit/lib.js:178 | remaining is never negative; it is zero exactly when the hits reach the quota; otherwise remaining plus hits equals the quota; after a hit it is below a non-negative quota or zero |
| Middleware.Exceeded | poc-redis-gcra/express-rate-limit/lib.js:234-246 | a quota of zero never rejects; a rejected hit has no quota left and is not the last admitted one; with a non-zero quota, no quota left and a count other than the quota means rejection |
| Middleware.SetLegacyHeaders | poc-redis-gcra/express-rate-limit/lib.js:182-190 | when enabled and the headers are not sent, `X-RateLimit-Limit` and `X-RateLimit-Remaining` carry the quota and the hits left, and with a reset time `Date` is `now` and `X-RateLimit-Reset` the reset in whole seconds; otherwise the response is unchanged; without a reset time those two keep their old values; no header outside the family changes |
| Middleware.SetStandardHeaders | poc-redis-gcra/express-rate-limit/lib.js:193-200 | when enabled and the headers are not sent, `RateLimit-Limit` and `RateLimit-Remaining` carry the quota and the hits left, and with a reset time `RateLimit-Reset` the seconds until it; otherwise the response is unchanged; without a reset time `RateLimit-Reset` keeps its old value; no header outside the family changes |
| Middleware.SetRetryAfter | poc-redis-gcra/express-rate-limit/lib.js:239-243 | on a rejected request with a header family on and the headers not sent, `Retry-After` is the window in whole seconds; otherwise the response is unchanged; no other header changes |
| Middleware.Decide | poc-redis-gcra/express-rate-limit/lib.js:170-246 | the request is rejected exactly when the quota is non-zero and exceeded; the limit-reached hook fires exactly at quota + 1; each header family carries the quota, the remaining hits and the reset in seconds when enabled and the headers are not yet sent; `Retry-After` is the window in whole seconds on rejection with a header family on and the headers not sent, and keeps its old value otherwise; nothing is set once headers are sent; a switched-off family, and without a reset time the reset headers and `Date`, keep their old values; other headers are untouched |
| Middleware.HandleRequest | poc-redis-gcra/express-rate-limit/lib.js:156-246 | a skipped request leaves the store alone and is passed on; otherwise the key's count goes up by exactly one, nothing else in the store changes, the request is decided by `Decide` on the new count and the store's reset time (so its `remaining`, verdict, hook flag and headers are those `Decide` promises), and the latch is armed exactly when a compensation option is on |
| Middleware.NewWindowAdmits | poc-redis-gcra/express-rate-limit/lib.js:234-247 | after the periodic full reset, a key's first request counts 1 and is passed on exactly when the quota is not negative |
| Middleware.CountedRequest | poc-redis-gcra/express-rate-limit/lib.js:166-180 | a counted request raises its key's count by one and keeps the window's reset time; its decision reports the raised count and that reset time |
| Middleware.ServeStore | poc-redis-gcra/express-rate-limit/lib.js:166-180 | n consecutive requests from one key yield n decisions, add exactly n hits to the key and keep the window's reset time |
| Middleware.ServeCounts | poc-redis-gcra/express-rate-limit/lib.js:166-180 | the i-th of n consecutive requests from one key sees its starting count plus i + 1, with the window's reset time |
| Middleware.WindowBoundary | poc-redis-gcra/express-rate-limit/lib.js:231-246 | from an empty count with a positive quota, exactly the first `max` requests are passed on, and the limit-reached hook fires only on the first rejected one |
| Middleware.SixtyFirstRequestRejected | poc-redis-gcra/express-rate-limit/lib.js:231-246 | with the demo public limiter's parsed settings (30000 ms window, both header families) and its quota of 60, requests 1 to 60 pass and request 61 is rejected with `Retry-After: 30` and the limit-reached hook fired |
| Middleware.CreateLimiter | poc-redis-gcra/express-rate-limit/lib.js:149-154 | without a custom store, option parsing succeeds; the limiter runs on exactly the settings of the parsed configuration (window, header families, skip switches), and the in-memory store is initialised with that window: no counters, reset one window after `now` |
| DecrementLatch.Listeners | poc-redis-gcra/express-rate-limit/lib.js:211-229 | the failed-request listeners (`finish` when unsuccessful, `close` before the end, `error`) are registered exactly under `skipFailedRequests`; the successful-request one exactly under `skipSuccessfulRequests` |
| DecrementLatch.Fires | poc-redis-gcra/express-rate-limit/lib.js:211-228 | on `finish` exactly the listener matching the request's success fires; on `close` only the abort listener, and only when the response never ended; on `error` only the error listener |
| DecrementLatch.DecrementKey | poc-redis-gcra/express-rate-limit/lib.js:205-210 | the latch ends closed, and a decrement goes through exactly when it was open |
| DecrementLatch.Dispatch | poc-redis-gcra/express-rate-limit/lib.js:211-229 | after one signal the latch is closed exactly when it was closed or some listener reacted, and at most one decrement was added |
| DecrementLatch.Run | poc-redis-gcra/express-rate-limit/lib.js:203-230 | after any signal sequence the latch is closed exactly when it was closed or some listener reacted to some signal, and at most one decrement was added |
| DecrementLatch.AtMostOnce | poc-redis-gcra/express-rate-limit/lib.js:204-210 | per request at most one decrement reaches the store, and exactly one when some registered listener reacted |
| DecrementLatch.NoListenersNoDecrement | poc-redis-gcra/express-rate-limit/lib.js:203 | with neither compensation option, no decrement is ever issued |
| DecrementLatch.FinishDecrementsOnce | poc-redis-gcra/express-rate-limit/lib.js:211-228 | a finished failed request under `skipFailedRequests`, or a finished successful one under `skipSuccessfulRequests`, is decremented exactly once whatever follows |
| DecrementLatch.CompensatedRequestNotCounted | poc-redis-gcra/express-rate-limit/lib.js:201-230 | for a request that should not count, the middleware's increment and the compensating decrement cancel: the key's count is back where it was and every other key is untouched |

## Left out

- The GCRA limiter (`redis-gcra/lib`, which `api/app.js` requires) is not modelled; this model covers only the fixed-window limiter.
- The Express wiring, the Redis client setup, the Basic-auth stub, server bootstrap and the `async-express-mw` wrapper are glue around the limiter.
- The legacy store's callback adaptation inside `PromisifiedStore` is async plumbing. Only its shape is modelled, so that the store check can be stated.
- `handleAsyncErrors` is left out, and so is the rejection handler's body: it sets the status code, awaits a message function and sends the response. The model records only that the handler is called.
- The `keyGenerator`, `skip`, `max`, `requestWasSuccessful` and `onLimitReached` functions are left out. They are replaceable options; the library's own defaults (lib.js:79-86) use `request.ip` as the key, never skip, and count a status below 400 as success. Their results, defaults included, arrive as parameters: the key, the skip flag, the resolved quota, and the `successful` field of a `finish` signal. `onLimitReached` receives the response (lib.js:235) and could set headers or send it before `Retry-After` is set (lib.js:239-242); the model records only that it is called, and its effects on the response are not modelled.
- `setInterval`, `unref` and the clock are left out. The periodic sweep is the `ResetAll` operation.
- `Date#toUTCString` is left out: the `Date` header's value is the moment `now`, not its text.
- `console` warnings are left out.
- Middleware.Decide: header names are compared exactly. Node's `setHeader` folds names to lower case, so a header set earlier as, say, `retry-after` or `x-ratelimit-limit` is overwritten by the middleware, whereas the model keeps it as a different header and `Decide`'s frame says it is unchanged.
- Middleware.Decide: a store's `resetTime` is either a `Date` (`Some`) or absent (`None`, for `undefined`); other values are not modelled. The source treats them per header family. `Date` and `X-RateLimit-Reset` need `resetTime instanceof Date` (lib.js:186), so any other value, truthy or not, sets neither. `RateLimit-Reset` needs only a truthy value (lib.js:196): a truthy non-`Date` with a `getTime` method sets it from that method, and one without `getTime` throws when `standardHeaders` is on and the headers are not yet sent (lib.js:193-197).
- MemoryStore.Increment: keys are assumed not to name a member inherited from `Object.prototype`. The source's `this.hits = {}` (memory-store.js:34) is a plain object, so for a key such as `constructor` or `toString` the read `this.hits[key] ?? 0` (memory-store.js:55) yields the inherited function, and `+ 1` turns it into a string; for `__proto__` the assignment is ignored. The middleware's `totalHits > maxHits` then compares that string with a number, which is false, so such a key is never limited and `X-RateLimit-Remaining` is `NaN` (lib.js:178, 239). The model counts such a key like any other.
- Options.SettingsOf: a `windowMs` that is not a number falls outside the model (`None`). JavaScript carries on with its own coercions: `null` gives `Retry-After: 0` (lib.js:242) and a reset time of `now`; `false` behaves like `null`, and `true` gives `Retry-After: 1` and a reset 1 ms after `now` (memory-store.js:14); a numeric string, or an array that coerces to one, is converted to a number by the division at lib.js:242 but concatenated by `getMilliseconds() + windowMs` at memory-store.js:14 before `setMilliseconds` converts the joined digits; other objects and non-numeric strings give `NaN`. `statusCode` only reaches the rejection handler, which is left out, so the settings do not read it.
- Middleware.CreateLimiter: covers only the built-in in-memory store. A custom store is user code whose counting is not modelled. `ParseOptions` still covers its validation.
- The middleware is modelled against the in-memory store. A networked store is expected to keep the same per-call contract atomically, which cannot be checked here.
- Concurrency is left out: requests and response signals are processed one at a time. The source sets its latch only after awaiting `store.decrement` (lib.js:206-208). So listeners that overlap across that await could decrement twice. Only the sequential at-most-once behaviour is proved.
- JavaScript numbers are integers in this model: fractional milliseconds, `NaN` and the `Date` range limit are left out.

=== FILE: decrement_latch.dfy ===
/**
 The compensation step of the middleware: when failed or successful requests
 are not to be counted, listeners on the response's `finish`, `close` and
 `error` signals give the hit back through a latch that lets at most one
 `decrement` reach the store per request. Signals are handled one after the
 other; each listener runs to completion before the next starts.
 */
module DecrementLatch {
  import opened Options
  import MemoryStore
  import Middleware

  /** A response signal with what the listeners read when it fires. */
  datatype Signal =
    | Finish(successful: bool)    // `requestWasSuccessful` at `finish`
    | Close(writableEnded: bool)  // whether the response had ended at `close`
    | Error

  /** The listeners the middleware registers. */
  datatype Listener =
    | DecrementIfFailed     // on `finish`, when the request was not successful
    | DecrementIfAborted    // on `close`, when the response never ended
    | DecrementOnError      // on `error`
    | DecrementIfSucceeded  // on `finish`, when the request was successful

  /** The listeners registered under `skipFailedRequests`, in registration order. */
  const FailedRequestListeners: seq<Listener> := [DecrementIfFailed, DecrementIfAborted, DecrementOnError]

  /** The listeners in registration order: the failed-request ones first, then the successful-request one. */
  function Listeners(settings: Settings): (ls: seq<Listener>)
    ensures settings.skipFailedRequests <==> DecrementIfFailed in ls
    ensures settings.skipFailedRequests <==> DecrementIfAborted in ls
    ensures settings.skipFailedRequests <==> DecrementOnError in ls
    ensures settings.skipSuccessfulRequests <==> DecrementIfSucceeded in ls
    ensures |ls| <= 4
  {
    (if settings.skipFailedRequests then FailedRequestListeners else [])
    + (if settings.skipSuccessfulRequests then [DecrementIfSucceeded] else [])
  }

  /** Whether listener `l` asks for a decrement when `signal` fires. */
  function Fires(l: Listener, signal: Signal): (fired: bool)
    ensures signal.Finish? ==> (fired <==> if signal.successful then l.DecrementIfSucceeded? else l.DecrementIfFailed?)
    ensures signal.Close? ==> (fired <==> l.DecrementIfAborted? && !signal.writableEnded)
    ensures signal.Error? ==> (fired <==> l.DecrementOnError?)
  {
    match l
    case DecrementIfFailed => signal.Finish? && !signal.successful
    case DecrementIfAborted => signal.Close? && !signal.writableEnded
    case DecrementOnError => signal.Error?
    case DecrementIfSucceeded => signal.Finish? && signal.successful
  }

  /** Some registered listener asks for a decrement on some signal. */
  ghost predicate Wanted(ls: seq<Listener>, signals: seq<Signal>)
  {
    exists i, j :: 0 <= i < |signals| && 0 <= j < |ls| && Fires(ls[j], signals[i])
  }

  /** The latch, and how many decrements it has let through to the store. */
  datatype Latch = Latch(decremented: bool, issued: nat)

  /** The starting state of a request's latch. */
  const Armed: Latch := Latch(false, 0)

  /** `decrementKey`: passes a decrement to the store unless one already went through. */
  function DecrementKey(latch: Latch): (r: Latch)
    ensures r.decremented
    ensures r.issued == latch.issued + (if latch.decremented then 0 else 1)
  {
    if latch.decremented then latch else Latch(true, latch.issued + 1)
  }

  /** Runs the listeners `ls`, in order, on one signal. */
  function Dispatch(latch: Latch, ls: seq<Listener>, signal: Signal): (r: Latch)
    ensures r.decremented == (latch.decremented || exists j :: 0 <= j < |ls| && Fires(ls[j], signal))
    ensures r.issued == latch.issued + (if !latch.decremented && r.decremented then 1 else 0)
    decreases |ls|
  {
    if |ls| == 0 then latch
    else
      var next := if Fires(ls[0], signal) then DecrementKey(latch) else latch;
      var r := Dispatch(next, ls[1..], signal);
      assert forall j :: 1 <= j < |ls| ==> ls[j] == ls[1..][j - 1];
      r
  }

  /** Runs every signal of the response, in order. */
  function Run(latch: Latch, ls: seq<Listener>, signals: seq<Signal>): (r: Latch)
    ensures r.decremented == (latch.decremented || Wanted(ls, signals))
    ensures r.issued == latch.issued + (if !latch.decremented && r.decremented then 1 else 0)
    decreases |signals|
  {
    if |signals| == 0 then latch
    else
      var r := Run(Dispatch(latch, ls, signals[0]), ls, signals[1..]);
      assert Wanted(ls, signals) <==>
               (exists j :: 0 <= j < |ls| && Fires(ls[j], signals[0])) || Wanted(ls, signals[1..]) by {
        if Wanted(ls, signals) {
          var i, j :| 0 <= i < |signals| && 0 <= j < |ls| && Fires(ls[j], signals[i]);
          if i > 0 {
            assert signals[1..][i - 1] == signals[i];
          }
        }
        if Wanted(ls, signals[1..]) {
          var i, j :| 0 <= i < |signals[1..]| && 0 <= j < |ls| && Fires(ls[j], signals[1..][i]);
          assert signals[i + 1] == signals[1..][i];
        }
      }
      r
  }

  /**
   At most one decrement per request, whatever the signals: exactly one when a
   registered listener asked for it, none otherwise.
   */
  lemma AtMostOnce(settings: Settings, signals: seq<Signal>)
    ensures Run(Armed, Listeners(settings), signals).issued <= 1
    ensures Run(Armed, Listeners(settings), signals).issued == 1 <==> Wanted(Listeners(settings), signals)
  {
  }

  /** With neither compensation option, nothing is ever decremented. */
  lemma NoListenersNoDecrement(settings: Settings, signals: seq<Signal>)
    requires !settings.skipFailedRequests && !settings.skipSuccessfulRequests
    ensures Run(Armed, Listeners(settings), signals).issued == 0
  {
  }

  /** A failed request is given back under `skipFailedRequests`, a successful one under `skipSuccessfulRequests`. */
  lemma FinishDecrementsOnce(settings: Settings, successful: bool, rest: seq<Signal>)
    requires if successful then settings.skipSuccessfulRequests else settings.skipFailedRequests
    ensures Run(Armed, Listeners(settings), [Finish(successful)] + rest).issued == 1
  {
    var ls := Listeners(settings);
    var signals := [Finish(successful)] + rest;
    // The listener that reacts: the first registered one for a failed request,
    // and for a successful one `DecrementIfSucceeded`, registered after the
    // three failed-request listeners when those are present.
    var j := if successful && settings.skipFailedRequests then |FailedRequestListeners| else 0;
    assert Fires(ls[j], signals[0]);
  }

  /** The store after a request's compensation: one `decrement` of `key` when the latch let one through (`AtMostOnce` bounds it by one). */
  function Compensate(store: MemoryStore.Store, key: string, latch: Latch): MemoryStore.Store
  {
    if latch.issued == 0 then store else MemoryStore.Decrement(store, key)
  }

  /**
   A request the options say not to count leaves the counter where it was:
   the middleware's increment and the compensating decrement cancel out,
   and every other key is untouched.
   */
  lemma CompensatedRequestNotCounted(settings: Settings, store: MemoryStore.Store, key: string, maxHits: int, now: int,
                                     response: Middleware.Response, signals: seq<Signal>)
    requires MemoryStore.Valid(store)
    requires Wanted(Listeners(settings), signals)
    ensures var handled := Middleware.HandleRequest(settings, store, false, key, maxHits, now, response);
            var after := Compensate(handled.store, key, Run(Armed, Listeners(settings), signals));
            MemoryStore.Hits(after, key) == MemoryStore.Hits(store, key) && MemoryStore.OthersUnchanged(store, after, key)
  {
    AtMostOnce(settings, signals);
    var handled := Middleware.HandleRequest(settings, store, false, key, maxHits, now, response);
    assert handled.store == MemoryStore.Increment(store, key).store;
    MemoryStore.DecrementUndoesIncrement(store, key);
  }
}

=== FILE: js_values.dfy ===
/**
 The slice of JavaScript value semantics the option parser relies on:
 `typeof`, property reads, truthiness and the nullish-coalescing operator `??`.
 Numbers are modelled as integers.
 */
module JsValues {

  datatype JsValue =
    | Undefined
    | Null
    | Bool(b: bool)
    | Num(n: int)
    | Str(s: string)
    | Function(name: string)
    | Object(fields: map<string, JsValue>)

  /** A plain object, as a map from property name to value. */
  type JsObject = map<string, JsValue>

  /** The string the `typeof` operator yields. */
  function TypeOf(v: JsValue): string
  {
    match v
    case Undefined => "undefined"
    case Null => "object"
    case Bool(_) => "boolean"
    case Num(_) => "number"
    case Str(_) => "string"
    case Function(_) => "function"
    case Object(_) => "object"
  }

  predicate IsFunction(v: JsValue)
  {
    TypeOf(v) == "function"
  }

  /** The values `??` replaces by its right operand. */
  predicate Nullish(v: JsValue)
  {
    v == Undefined || v == Null
  }

  /** The values an `if` treats as true. */
  predicate Truthy(v: JsValue)
  {
    match v
    case Undefined => false
    case Null => false
    case Bool(b) => b
    case Num(n) => n != 0
    case Str(s) => s != ""
    case Function(_) => true
    case Object(_) => true
  }

  /** `o[key]` on a plain object: a missing property reads as `undefined`. */
  function Get(o: JsObject, key: string): JsValue
  {
    if key in o then o[key] else Undefined
  }

  /** `v.key`; reading a property of `null` or `undefined` throws, so callers must exclude them. */
  function Property(v: JsValue, key: string): JsValue
    requires !Nullish(v)
  {
    if v.Object? then Get(v.fields, key) else Undefined
  }

  /** `v ?? fallback`. */
  function Coalesce(v: JsValue, fallback: JsValue): (r: JsValue)
    ensures !Nullish(v) ==> r == v
    ensures Nullish(v) ==> r == fallback
    ensures !Nullish(fallback) ==> !Nullish(r)
  {
    if Nullish(v) then fallback else v
  }
}

=== FILE: memory_store.dfy ===
/**
 The in-memory hit-count store: one counter per client key and a single reset
 time shared by all keys. Every operation is a pure function from the old
 store state to the new one; the wall clock is the parameter `now`
 (milliseconds since the epoch).
 */
module MemoryStore {

  datatype Store = Store(windowMs: int, resetTime: int, hits: map<string, int>)

  /** What `increment` hands back to the middleware. */
  datatype IncrementResponse = IncrementResponse(totalHits: int, resetTime: int)

  datatype Incremented = Incremented(response: IncrementResponse, store: Store)

  /** The hit count of `key`, reading a missing key as zero. */
  function Hits(s: Store, key: string): int
  {
    if key in s.hits then s.hits[key] else 0
  }

  /** No counter is negative. */
  ghost predicate Valid(s: Store)
  {
    forall k :: k in s.hits ==> s.hits[k] >= 0
  }

  /** The store differs from `s` at most in the counter of `key`. */
  ghost predicate OthersUnchanged(s: Store, t: Store, key: string)
  {
    && t.windowMs == s.windowMs
    && t.resetTime == s.resetTime
    && forall k :: k != key ==> (k in t.hits <==> k in s.hits) && Hits(t, k) == Hits(s, k)
  }

  /** The moment the current window ends, `windowMs` after `now`. */
  function NextResetTime(windowMs: int, now: int): (resetTime: int)
    ensures resetTime - windowMs == now
    ensures windowMs > 0 ==> resetTime > now
  {
    now + windowMs
  }

  /** Sets the window length from the options, starts the first window and clears all counters. */
  function Init(windowMs: int, now: int): (s: Store)
    ensures s.windowMs == windowMs
    ensures s.resetTime - now == windowMs
    ensures s.hits == map[]
    ensures Valid(s)
    ensures forall k :: Hits(s, k) == 0
  {
    Store(windowMs, NextResetTime(windowMs, now), map[])
  }

  /** Creates the counter of `key` if it is missing and adds one hit to it. */
  function Increment(s: Store, key: string): (r: Incremented)
    ensures r.response.totalHits == Hits(s, key) + 1
    ensures key in r.store.hits && r.store.hits[key] == r.response.totalHits
    ensures r.response.resetTime == s.resetTime
    ensures OthersUnchanged(s, r.store, key)
    ensures Valid(s) ==> Valid(r.store) && r.response.totalHits >= 1
  {
    var totalHits := Hits(s, key) + 1;
    Incremented(IncrementResponse(totalHits, s.resetTime), s.(hits := s.hits[key := totalHits]))
  }

  /** Removes one hit from `key`, but only when its counter is present and non-zero (truthy). */
  function Decrement(s: Store, key: string): (t: Store)
    ensures key in s.hits && s.hits[key] != 0 ==> key in t.hits && t.hits[key] == s.hits[key] - 1
    ensures key !in s.hits || s.hits[key] == 0 ==> t == s
    ensures OthersUnchanged(s, t, key)
    ensures Valid(s) ==> Valid(t) && Hits(t, key) == if Hits(s, key) > 0 then Hits(s, key) - 1 else 0
  {
    if key in s.hits && s.hits[key] != 0 then s.(hits := s.hits[key := s.hits[key] - 1]) else s
  }

  /** Forgets the counter of `key`. */
  function ResetKey(s: Store, key: string): (t: Store)
    ensures key !in t.hits && Hits(t, key) == 0
    ensures forall k :: k in t.hits <==> k in s.hits && k != key
    ensures OthersUnchanged(s, t, key)
    ensures Valid(s) ==> Valid(t)
  {
    s.(hits := s.hits - {key})
  }

  /** Clears every counter and starts a new window at `now`. */
  function ResetAll(s: Store, now: int): (t: Store)
    ensures t.hits == map[]
    ensures forall k :: Hits(t, k) == 0
    ensures t.windowMs == s.windowMs
    ensures t.resetTime - now == s.windowMs
    ensures Valid(t)
  {
    s.(hits := map[], resetTime := NextResetTime(s.windowMs, now))
  }

  /** Resetting a key twice is the same as resetting it once. */
  lemma ResetKeyIdempotent(s: Store, key: string)
    ensures ResetKey(ResetKey(s, key), key) == ResetKey(s, key)
  {
  }

  /** Resetting a key that was never hit changes nothing. */
  lemma ResetKeyUntouched(s: Store, key: string)
    requires key !in s.hits
    ensures ResetKey(s, key) == s
  {
    assert s.hits - {key} == s.hits;
  }

  /** The first increment after `init`, `resetKey` or `resetAll` reports a single hit. */
  lemma FreshCounterStartsAtOne(s: Store, key: string, other: string, windowMs: int, now: int)
    ensures Increment(Init(windowMs, now), key).response.totalHits == 1
    ensures Increment(ResetKey(s, key), key).response.totalHits == 1
    ensures Increment(ResetAll(s, now), other).response.totalHits == 1
  {
  }

  /** `decrement` undoes the hit `increment` added, on a store whose counters are not negative. */
  lemma DecrementUndoesIncrement(s: Store, key: string)
    requires Valid(s)
    ensures Hits(Decrement(Increment(s, key).store, key), key) == Hits(s, key)
    ensures OthersUnchanged(s, Decrement(Increment(s, key).store, key), key)
  {
  }

  /** The store after `n` increments of `key`. */
  function IncrementTimes(s: Store, key: string, n: nat): Store
  {
    if n == 0 then s else Increment(IncrementTimes(s, key, n - 1), key).store
  }

  /** `n` increments add exactly `n` hits to `key` and touch nothing else. */
  lemma {:induction false} IncrementTimesCount(s: Store, key: string, n: nat)
    ensures Hits(IncrementTimes(s, key, n), key) == Hits(s, key) + n
    ensures OthersUnchanged(s, IncrementTimes(s, key, n), key)
  {
    if n > 0 {
      IncrementTimesCount(s, key, n - 1);
    }
  }

  /** Starting from an empty window, `n` increments leave the count at `n`. */
  lemma IncrementTimesFromEmpty(windowMs: int, now: int, key: string, n: nat)
    ensures Hits(IncrementTimes(Init(windowMs, now), key, n), key) == n
  {
    IncrementTimesCount(Init(windowMs, now), key, n);
  }

  /** One store operation, as the middleware or the periodic sweep issues it. */
  datatype Op = IncrementOp(key: string) | DecrementOp(key: string) | ResetKeyOp(key: string) | ResetAllOp(now: int)

  function Step(s: Store, op: Op): Store
  {
    match op
    case IncrementOp(k) => Increment(s, k).store
    case DecrementOp(k) => Decrement(s, k)
    case ResetKeyOp(k) => ResetKey(s, k)
    case ResetAllOp(now) => ResetAll(s, now)
  }

  function Apply(s: Store, ops: seq<Op>): Store
    decreases |ops|
  {
    if |ops| == 0 then s else Apply(Step(s, ops[0]), ops[1..])
  }

  /** The number of increments of `key` in `ops`. */
  function IncrementsOf(ops: seq<Op>, key: string): nat
  {
    if |ops| == 0 then 0
    else (if ops[0] == IncrementOp(key) then 1 else 0) + IncrementsOf(ops[1..], key)
  }

  /** `ops` never lowers or clears the counter of `key`. */
  predicate OnlyGrows(ops: seq<Op>, key: string)
  {
    forall i :: 0 <= i < |ops| ==> ops[i] != DecrementOp(key) && ops[i] != ResetKeyOp(key) && !ops[i].ResetAllOp?
  }

  /** No sequence of operations makes a counter negative. */
  lemma {:induction false} ApplyKeepsValid(s: Store, ops: seq<Op>)
    requires Valid(s)
    ensures Valid(Apply(s, ops))
    decreases |ops|
  {
    if |ops| > 0 {
      ApplyKeepsValid(Step(s, ops[0]), ops[1..]);
    }
  }

  /** While nothing lowers or clears `key`, its counter grows by exactly its number of increments. */
  lemma {:induction false} ApplyCountsIncrements(s: Store, ops: seq<Op>, key: string)
    requires OnlyGrows(ops, key)
    ensures Hits(Apply(s, ops), key) == Hits(s, key) + IncrementsOf(ops, key)
    decreases |ops|
  {
    if |ops| > 0 {
      assert OnlyGrows(ops[1..], key) by {
        forall i | 0 <= i < |ops[1..]|
          ensures ops[1..][i] != DecrementOp(key) && ops[1..][i] != ResetKeyOp(key) && !ops[1..][i].ResetAllOp?
        {
          assert ops[1..][i] == ops[i + 1];
        }
      }
      ApplyCountsIncrements(Step(s, ops[0]), ops[1..], key);
    }
  }

  /**
   Window correctness: after a reset of `key` (its own or the periodic full one),
   its counter equals the number of increments issued since.
   */
  lemma WindowCountsHitsSinceReset(s: Store, reset: Op, ops: seq<Op>, key: string)
    requires reset == ResetKeyOp(key) || reset.ResetAllOp?
    requires OnlyGrows(ops, key)
    ensures Hits(Apply(s, [reset] + ops), key) == IncrementsOf(ops, key)
  {
    assert ([reset] + ops)[1..] == ops;
    ApplyCountsIncrements(Step(s, reset), ops, key);
  }
}

=== FILE: middleware.dfy ===
/**
 The per-request logic of the fixed-window rate-limiting middleware: counting
 the hit, computing the quota left, setting the informational headers, and
 deciding between passing the request on and calling the rejection handler.
 The quota `max` arrives already resolved; the clock is the parameter `now`.
 */
module Middleware {
  import opened Wrappers
  import opened Options
  import opened JsValues
  import MemoryStore

  const XRateLimitLimit: string := "X-RateLimit-Limit"
  const XRateLimitRemaining: string := "X-RateLimit-Remaining"
  const XRateLimitReset: string := "X-RateLimit-Reset"
  const DateHeader: string := "Date"
  const RateLimitLimit: string := "RateLimit-Limit"
  const RateLimitRemaining: string := "RateLimit-Remaining"
  const RateLimitReset: string := "RateLimit-Reset"
  const RetryAfter: string := "Retry-After"

  /** A header value: a number, or the HTTP date of a moment in milliseconds. */
  datatype HeaderValue = Number(n: int) | HttpDate(ms: int)

  /** The response as far as the middleware touches it; `setHeader` overwrites by name. */
  datatype Response = Response(headersSent: bool, headers: map<string, HeaderValue>)

  /** The information attached to the request. `resetTime` is `None` when the store reports none. */
  datatype RateLimitInfo = RateLimitInfo(limit: int, current: int, remaining: int, resetTime: Option<int>)

  /** `Next` passes the request on; `Handler` calls the rejection handler. */
  datatype Verdict = Next | Handler

  datatype Decision = Decision(info: RateLimitInfo, response: Response, limitReached: bool, verdict: Verdict)

  /** `Math.ceil(ms / 1000)`: milliseconds rounded up to whole seconds. */
  function CeilSeconds(ms: int): (s: int)
    ensures (s - 1) * 1000 < ms <= s * 1000
  {
    if ms % 1000 == 0 then ms / 1000 else ms / 1000 + 1
  }

  /** Whole seconds from `now` until `resetTime`, never negative. */
  function SecondsUntil(resetTime: int, now: int): (s: int)
    ensures s >= 0
    ensures resetTime - now <= s * 1000
    ensures s > 0 ==> (s - 1) * 1000 < resetTime - now
    ensures resetTime <= now ==> s == 0
  {
    var delta := CeilSeconds(resetTime - now);
    if delta > 0 then delta else 0
  }

  /** The hits left in the window: what is left of the quota, and zero once it is used up. */
  function Remaining(maxHits: int, totalHits: int): (r: int)
    ensures r >= 0
    ensures r == 0 <==> totalHits >= maxHits
    ensures r > 0 ==> r + totalHits == maxHits
    ensures totalHits >= 1 && maxHits >= 0 ==> r < maxHits || r == 0
  {
    if maxHits - totalHits > 0 then maxHits - totalHits else 0
  }

  /** A quota of zero disables limiting (`maxHits` is falsy); otherwise a hit beyond the quota is rejected. */
  function Exceeded(maxHits: int, totalHits: int): (exceeded: bool)
    ensures maxHits == 0 ==> !exceeded
    ensures exceeded ==> Remaining(maxHits, totalHits) == 0 && totalHits != maxHits
    ensures maxHits != 0 && Remaining(maxHits, totalHits) == 0 && totalHits != maxHits ==> exceeded
  {
    maxHits != 0 && totalHits > maxHits
  }

  /** The headers of the `X-RateLimit-*` family, `Date` included. */
  const LegacyHeaderNames: set<string> := {XRateLimitLimit, XRateLimitRemaining, XRateLimitReset, DateHeader}

  /** The headers of the standardized `RateLimit-*` family. */
  const StandardHeaderNames: set<string> := {RateLimitLimit, RateLimitRemaining, RateLimitReset}

  /** The header names the middleware may set. */
  const RateLimitHeaders: set<string> := {
    XRateLimitLimit, XRateLimitRemaining, XRateLimitReset, DateHeader,
    RateLimitLimit, RateLimitRemaining, RateLimitReset, RetryAfter
  }

  /** The value of header `name`, `None` when it is not set. */
  function HeaderOf(headers: map<string, HeaderValue>, name: string): Option<HeaderValue>
  {
    if name in headers then Some(headers[name]) else None
  }

  /** Header `name` has the same presence and value in `after` as in `before`. */
  ghost predicate Keeps(before: map<string, HeaderValue>, after: map<string, HeaderValue>, name: string)
  {
    HeaderOf(after, name) == HeaderOf(before, name)
  }

  /** The `X-RateLimit-*` headers, and `Date` beside the reset time. */
  function SetLegacyHeaders(settings: Settings, info: RateLimitInfo, now: int, response: Response): (r: Response)
    ensures r.headersSent == response.headersSent
    ensures response.headersSent || !settings.legacyHeaders ==> r == response
    ensures response.headers.Keys <= r.headers.Keys
    ensures forall name :: name !in LegacyHeaderNames ==> Keeps(response.headers, r.headers, name)
    ensures info.resetTime.None? ==> HeaderOf(r.headers, XRateLimitReset) == HeaderOf(response.headers, XRateLimitReset) && HeaderOf(r.headers, DateHeader) == HeaderOf(response.headers, DateHeader)
    ensures !response.headersSent && settings.legacyHeaders ==>
              && XRateLimitLimit in r.headers && r.headers[XRateLimitLimit] == Number(info.limit)
              && XRateLimitRemaining in r.headers && r.headers[XRateLimitRemaining] == Number(info.remaining)
    ensures !response.headersSent && settings.legacyHeaders && info.resetTime.Some? ==>
              && XRateLimitReset in r.headers && r.headers[XRateLimitReset] == Number(CeilSeconds(info.resetTime.value))
              && DateHeader in r.headers && r.headers[DateHeader] == HttpDate(now)
  {
    if settings.legacyHeaders && !response.headersSent then
      var headers := response.headers[XRateLimitLimit := Number(info.limit)][XRateLimitRemaining := Number(info.remaining)];
      match info.resetTime
      case Some(t) => response.(headers := headers[DateHeader := HttpDate(now)][XRateLimitReset := Number(CeilSeconds(t))])
      case None => response.(headers := headers)
    else response
  }

  /** The standardized `RateLimit-*` headers. */
  function SetStandardHeaders(settings: Settings, info: RateLimitInfo, now: int, response: Response): (r: Response)
    ensures r.headersSent == response.headersSent
    ensures response.headersSent || !settings.standardHeaders ==> r == response
    ensures response.headers.Keys <= r.headers.Keys
    ensures forall name :: name !in StandardHeaderNames ==> Keeps(response.headers, r.headers, name)
    ensures info.resetTime.None? ==> HeaderOf(r.headers, RateLimitReset) == HeaderOf(response.headers, RateLimitReset)
    ensures !response.headersSent && settings.standardHeaders ==>
              && RateLimitLimit in r.headers && r.headers[RateLimitLimit] == Number(info.limit)
              && RateLimitRemaining in r.headers && r.headers[RateLimitRemaining] == Number(info.remaining)
    ensures !response.headersSent && settings.standardHeaders && info.resetTime.Some? ==>
              RateLimitReset in r.headers && r.headers[RateLimitReset] == Number(SecondsUntil(info.resetTime.value, now))
  {
    if settings.standardHeaders && !response.headersSent then
      var headers := response.headers[RateLimitLimit := Number(info.limit)][RateLimitRemaining := Number(info.remaining)];
      match info.resetTime
      case Some(t) => response.(headers := headers[RateLimitReset := Number(SecondsUntil(t, now))])
      case None => response.(headers := headers)
    else response
  }

  /** `Retry-After`, the window length in seconds, on a rejected request when any header family is enabled. */
  function SetRetryAfter(settings: Settings, exceeded: bool, response: Response): (r: Response)
    ensures r.headersSent == response.headersSent
    ensures !(exceeded && (settings.legacyHeaders || settings.standardHeaders) && !response.headersSent) ==> r == response
    ensures response.headers.Keys <= r.headers.Keys
    ensures forall name :: name != RetryAfter ==> Keeps(response.headers, r.headers, name)
    ensures exceeded && (settings.legacyHeaders || settings.standardHeaders) && !response.headersSent ==>
              RetryAfter in r.headers && r.headers[RetryAfter] == Number(CeilSeconds(settings.windowMs))
  {
    if exceeded && (settings.legacyHeaders || settings.standardHeaders) && !response.headersSent then
      response.(headers := response.headers[RetryAfter := Number(CeilSeconds(settings.windowMs))])
    else response
  }

  /** Decides one counted request given its hit count and the store's reset time. */
  function Decide(settings: Settings, maxHits: int, totalHits: int, resetTime: Option<int>, now: int, response: Response): (d: Decision)
    ensures d.info.limit == maxHits && d.info.current == totalHits && d.info.resetTime == resetTime
    ensures d.info.remaining == Remaining(maxHits, totalHits)
    ensures d.verdict == Handler <==> maxHits != 0 && totalHits > maxHits
    ensures d.limitReached <==> maxHits != 0 && totalHits == maxHits + 1
    ensures d.limitReached ==> d.verdict == Handler
    ensures d.response.headersSent == response.headersSent
    ensures response.headersSent ==> d.response == response
    ensures response.headers.Keys <= d.response.headers.Keys
    ensures forall name :: name !in RateLimitHeaders ==> Keeps(response.headers, d.response.headers, name)
    ensures !response.headersSent && settings.legacyHeaders ==>
              && XRateLimitLimit in d.response.headers && d.response.headers[XRateLimitLimit] == Number(maxHits)
              && XRateLimitRemaining in d.response.headers
              && d.response.headers[XRateLimitRemaining] == Number(Remaining(maxHits, totalHits))
    ensures !response.headersSent && settings.legacyHeaders && resetTime.Some? ==>
              && XRateLimitReset in d.response.headers
              && d.response.headers[XRateLimitReset] == Number(CeilSeconds(resetTime.value))
              && DateHeader in d.response.headers && d.response.headers[DateHeader] == HttpDate(now)
    ensures !response.headersSent && settings.standardHeaders ==>
              && RateLimitLimit in d.response.headers && d.response.headers[RateLimitLimit] == Number(maxHits)
              && RateLimitRemaining in d.response.headers
              && d.response.headers[RateLimitRemaining] == Number(Remaining(maxHits, totalHits))
    ensures !response.headersSent && settings.standardHeaders && resetTime.Some? ==>
              && RateLimitReset in d.response.headers
              && d.response.headers[RateLimitReset] == Number(SecondsUntil(resetTime.value, now))
    ensures !settings.legacyHeaders ==>
              && HeaderOf(d.response.headers, XRateLimitLimit) == HeaderOf(response.headers, XRateLimitLimit)
              && HeaderOf(d.response.headers, XRateLimitRemaining) == HeaderOf(response.headers, XRateLimitRemaining)
              && HeaderOf(d.response.headers, XRateLimitReset) == HeaderOf(response.headers, XRateLimitReset)
              && HeaderOf(d.response.headers, DateHeader) == HeaderOf(response.headers, DateHeader)
    ensures !settings.standardHeaders ==>
              && HeaderOf(d.response.headers, RateLimitLimit) == HeaderOf(response.headers, RateLimitLimit)
              && HeaderOf(d.response.headers, RateLimitRemaining) == HeaderOf(response.headers, RateLimitRemaining)
              && HeaderOf(d.response.headers, RateLimitReset) == HeaderOf(response.headers, RateLimitReset)
    ensures resetTime.None? ==>
              && HeaderOf(d.response.headers, XRateLimitReset) == HeaderOf(response.headers, XRateLimitReset)
              && HeaderOf(d.response.headers, DateHeader) == HeaderOf(response.headers, DateHeader)
              && HeaderOf(d.response.headers, RateLimitReset) == HeaderOf(response.headers, RateLimitReset)
    ensures !response.headersSent && maxHits != 0 && totalHits > maxHits && (settings.legacyHeaders || settings.standardHeaders) ==>
              RetryAfter in d.response.headers && d.response.headers[RetryAfter] == Number(CeilSeconds(settings.windowMs))
    ensures !(maxHits != 0 && totalHits > maxHits && (settings.legacyHeaders || settings.standardHeaders)) ==>
              HeaderOf(d.response.headers, RetryAfter) == HeaderOf(response.headers, RetryAfter)
  {
    var info := RateLimitInfo(maxHits, totalHits, Remaining(maxHits, totalHits), resetTime);
    var exceeded := Exceeded(maxHits, totalHits);
    var withHeaders := SetStandardHeaders(settings, info, now, SetLegacyHeaders(settings, info, now, response));
    Decision(info, SetRetryAfter(settings, exceeded, withHeaders), maxHits != 0 && totalHits == maxHits + 1, if exceeded then Handler else Next)
  }

  /** What the middleware did with a request: passed it on unchecked, or counted and decided it. */
  datatype Outcome = Skipped | Checked(decision: Decision, latchArmed: bool)

  datatype Handled = Handled(outcome: Outcome, store: MemoryStore.Store)

  /**
   The middleware run on one request against the in-memory store. A skipped
   request is passed on untouched; otherwise the key is counted once, the
   request decided on the new count, and the decrement latch armed when either
   compensation option is enabled.
   */
  function HandleRequest(settings: Settings, store: MemoryStore.Store, skip: bool, key: string, maxHits: int, now: int, response: Response): (r: Handled)
    ensures skip ==> r.outcome == Skipped && r.store == store
    ensures !skip ==> r.outcome.Checked?
    ensures !skip ==> MemoryStore.Hits(r.store, key) == MemoryStore.Hits(store, key) + 1
    ensures !skip ==> MemoryStore.OthersUnchanged(store, r.store, key)
    ensures !skip ==> r.outcome.decision.info.current == MemoryStore.Hits(r.store, key)
    ensures !skip ==> r.outcome.decision.info.resetTime == Some(store.resetTime)
    ensures !skip ==> r.outcome.decision.info.limit == maxHits
    ensures !skip ==> (r.outcome.latchArmed <==> settings.skipFailedRequests || settings.skipSuccessfulRequests)
    ensures !skip ==>
              var reported := MemoryStore.Increment(store, key).response;
              r.outcome.decision == Decide(settings, maxHits, reported.totalHits, Some(reported.resetTime), now, response)
  {
    if skip then Handled(Skipped, store)
    else
      var incremented := MemoryStore.Increment(store, key);
      var decision := Decide(settings, maxHits, incremented.response.totalHits, Some(incremented.response.resetTime), now, response);
      Handled(Checked(decision, settings.skipFailedRequests || settings.skipSuccessfulRequests), incremented.store)
  }

  /** The first request of a new window is passed on whenever the quota is not negative. */
  lemma NewWindowAdmits(settings: Settings, store: MemoryStore.Store, key: string, maxHits: int, now: int, later: int, response: Response)
    ensures var r := HandleRequest(settings, MemoryStore.ResetAll(store, later), false, key, maxHits, now, response);
            r.outcome.decision.info.current == 1 && (r.outcome.decision.verdict == Next <==> maxHits >= 0)
  {
  }

  /** The decisions of `n` consecutive, unskipped requests from one key, and the store afterwards. */
  datatype Served = Served(decisions: seq<Decision>, store: MemoryStore.Store)

  function Serve(settings: Settings, store: MemoryStore.Store, key: string, maxHits: int, now: int, response: Response, n: nat): Served
  {
    if n == 0 then Served([], store)
    else
      var before := Serve(settings, store, key, maxHits, now, response, n - 1);
      var r := HandleRequest(settings, before.store, false, key, maxHits, now, response);
      Served(before.decisions + [r.outcome.decision], r.store)
  }

  /** A counted request raises its key's count by one and is decided on the raised count and the window's reset time. */
  lemma CountedRequest(settings: Settings, store: MemoryStore.Store, key: string, maxHits: int, now: int, response: Response)
    ensures var r := HandleRequest(settings, store, false, key, maxHits, now, response);
            && MemoryStore.Hits(r.store, key) == MemoryStore.Hits(store, key) + 1
            && r.store.resetTime == store.resetTime
            && r.outcome.decision.info.current == MemoryStore.Hits(store, key) + 1
            && r.outcome.decision.info.resetTime == Some(store.resetTime)
  {
  }

  /** `n` consecutive requests yield `n` decisions, add `n` hits to the key and keep the window. */
  lemma {:induction false} ServeStore(settings: Settings, store: MemoryStore.Store, key: string, maxHits: int, now: int, response: Response, n: nat)
    ensures var s := Serve(settings, store, key, maxHits, now, response, n);
            && |s.decisions| == n
            && MemoryStore.Hits(s.store, key) == MemoryStore.Hits(store, key) + n
            && s.store.resetTime == store.resetTime
  {
    if n > 0 {
      ServeStore(settings, store, key, maxHits, now, response, n - 1);
      var before := Serve(settings, store, key, maxHits, now, response, n - 1);
      var last := HandleRequest(settings, before.store, false, key, maxHits, now, response);
      assert Serve(settings, store, key, maxHits, now, response, n) == Served(before.decisions + [last.outcome.decision], last.store);
      CountedRequest(settings, before.store, key, maxHits, now, response);
    }
  }

  /** The `i`-th of `n` consecutive requests sees the count it started from plus `i + 1`. */
  lemma {:induction false} ServeCounts(settings: Settings, store: MemoryStore.Store, key: string, maxHits: int, now: int, response: Response, n: nat)
    ensures var s := Serve(settings, store, key, maxHits, now, response, n);
            && |s.decisions| == n
            && MemoryStore.Hits(s.store, key) == MemoryStore.Hits(store, key) + n
            && s.store.resetTime == store.resetTime
            && forall i :: 0 <= i < n ==>
                 && s.decisions[i].info.current == MemoryStore.Hits(store, key) + i + 1
                 && s.decisions[i].info.resetTime == Some(store.resetTime)
  {
    ServeStore(settings, store, key, maxHits, now, response, n);
    if n > 0 {
      ServeCounts(settings, store, key, maxHits, now, response, n - 1);
      var before := Serve(settings, store, key, maxHits, now, response, n - 1);
      var last := HandleRequest(settings, before.store, false, key, maxHits, now, response);
      var s := Serve(settings, store, key, maxHits, now, response, n);
      CountedRequest(settings, before.store, key, maxHits, now, response);
      assert s.decisions == before.decisions + [last.outcome.decision];
      forall i | 0 <= i < n
        ensures s.decisions[i].info.current == MemoryStore.Hits(store, key) + i + 1
        ensures s.decisions[i].info.resetTime == Some(store.resetTime)
      {
        if i < n - 1 {
          assert s.decisions[i] == before.decisions[i];
        }
      }
    }
  }

  /**
   Window boundary: from an empty count and a positive quota, exactly the first
   `maxHits` requests are passed on, and the limit-reached notification fires on
   the first rejected one only.
   */
  lemma WindowBoundary(settings: Settings, store: MemoryStore.Store, key: string, maxHits: int, now: int, response: Response, n: nat)
    requires MemoryStore.Hits(store, key) == 0
    requires maxHits > 0
    ensures var s := Serve(settings, store, key, maxHits, now, response, n);
            && |s.decisions| == n
            && forall i :: 0 <= i < n ==>
              && (s.decisions[i].verdict == Next <==> i < maxHits)
              && (s.decisions[i].limitReached <==> i == maxHits)
  {
    ServeCounts(settings, store, key, maxHits, now, response, n);
  }

  /**
   The demo application's public limiter, with the settings its options parse
   to (`PublicLimiterParsed`) and the quota of 60 they set
   (`PublicLimiterQuota`): serving one key from a fresh window passes 60
   requests and rejects the 61st with `Retry-After: 30`.
   */
  lemma SixtyFirstRequestRejected(now: int, key: string)
    ensures var s := Serve(PublicLimiterSettings, MemoryStore.Init(PublicLimiterSettings.windowMs, now), key, 60, now, Response(false, map[]), 61);
            && |s.decisions| == 61
            && (forall i :: 0 <= i < 60 ==> s.decisions[i].verdict == Next)
            && s.decisions[60].verdict == Handler
            && s.decisions[60].limitReached
            && s.decisions[60].response.headers[RetryAfter] == Number(30)
  {
    var store := MemoryStore.Init(30000, now);
    WindowBoundary(PublicLimiterSettings, store, key, 60, now, Response(false, map[]), 61);
    ServeCounts(PublicLimiterSettings, store, key, 60, now, Response(false, map[]), 61);
  }

  /** A constructed middleware over the built-in in-memory store. */
  datatype Limiter = Limiter(settings: Settings, store: MemoryStore.Store)

  /**
   `rateLimit(options)` without a custom store: the options are parsed and the
   fresh in-memory store is initialised with the configured window. `None`
   when the window length is not a number.
   */
  function CreateLimiter(passed: JsObject, now: int): (r: Option<Limiter>)
    requires Nullish(Get(passed, "store"))
    ensures ParseOptions(passed).Success?
    ensures r.Some? <==> SettingsOf(ParseOptions(passed).value).Some?
    ensures r.Some? ==> ParseOptions(passed).value["windowMs"] == Num(r.value.settings.windowMs)
    ensures r.Some? ==> Some(r.value.settings) == SettingsOf(ParseOptions(passed).value)
    ensures r.Some? ==> r.value.store.windowMs == r.value.settings.windowMs
    ensures r.Some? ==> r.value.store.resetTime == now + r.value.settings.windowMs
    ensures r.Some? ==> r.value.store.hits == map[]
  {
    var config := ParseOptions(passed).value;
    match SettingsOf(config)
    case Some(settings) => Some(Limiter(settings, MemoryStore.Init(settings.windowMs, now)))
    case None => None
  }
}

=== FILE: options.dfy ===
/**
 Option parsing of the rate-limiting middleware: undefined options are dropped,
 the rest are laid over the defaults, the store is chosen (a fresh in-memory
 store unless one is supplied), legacy callback stores are wrapped, and the
 resulting store's shape is validated.
 */
module Options {
  import opened Wrappers
  import opened JsValues

  /** The `TypeError` thrown for a store that does not implement the store interface. */
  datatype ConfigError = InvalidStore

  /** A fresh in-memory store instance: its five methods. */
  const NewMemoryStore: JsValue := Object(map[
    "init" := Function("MemoryStore.init"),
    "increment" := Function("MemoryStore.increment"),
    "decrement" := Function("MemoryStore.decrement"),
    "resetKey" := Function("MemoryStore.resetKey"),
    "resetAll" := Function("MemoryStore.resetAll")
  ])

  /** The wrapper built around a legacy store: four methods and no `init`. */
  const PromisifiedStore: JsValue := Object(map[
    "increment" := Function("PromisifiedStore.increment"),
    "decrement" := Function("PromisifiedStore.decrement"),
    "resetKey" := Function("PromisifiedStore.resetKey"),
    "resetAll" := Function("PromisifiedStore.resetAll")
  ])

  const DefaultMessage: string := "Too many requests, please try again later."

  /** A store with a callback-style `incr` and no promise-style `increment`. */
  function IsLegacyStore(store: JsValue): (legacy: bool)
    requires !Nullish(store)
    ensures legacy <==> Property(store, "incr").Function? && !Property(store, "increment").Function?
    ensures legacy ==> !IsValidStore(store)
  {
    IsFunction(Property(store, "incr")) && !IsFunction(Property(store, "increment"))
  }

  /** Either absent or a function. */
  predicate OptionalFunction(v: JsValue)
  {
    TypeOf(v) == "undefined" || TypeOf(v) == "function"
  }

  /** The store interface: three required methods and two optional ones. */
  function IsValidStore(store: JsValue): (valid: bool)
    requires !Nullish(store)
    ensures valid <==>
              && Property(store, "increment").Function?
              && Property(store, "decrement").Function?
              && Property(store, "resetKey").Function?
              && (Property(store, "resetAll").Undefined? || Property(store, "resetAll").Function?)
              && (Property(store, "init").Undefined? || Property(store, "init").Function?)
    ensures valid ==> store.Object?
  {
    && IsFunction(Property(store, "increment"))
    && IsFunction(Property(store, "decrement"))
    && IsFunction(Property(store, "resetKey"))
    && OptionalFunction(Property(store, "resetAll"))
    && OptionalFunction(Property(store, "init"))
  }

  /** Returns a non-legacy store unchanged and wraps a legacy one. */
  function PromisifyStore(store: JsValue): (r: JsValue)
    requires !Nullish(store)
    ensures !Nullish(r) && !IsLegacyStore(r)
    ensures !IsLegacyStore(store) ==> r == store
    ensures IsLegacyStore(store) ==> IsValidStore(r)
  {
    if !IsLegacyStore(store) then store else PromisifiedStore
  }

  /** Drops every option whose value is `undefined`, keeping the others as they are. */
  function OmitUndefinedOptions(passed: JsObject): (r: JsObject)
    ensures forall k :: k in r <==> k in passed && passed[k] != Undefined
    ensures forall k :: k in r ==> r[k] == passed[k]
  {
    map k | k in passed && passed[k] != Undefined :: passed[k]
  }

  /** Dropping undefined options is invisible to property reads, and doing it twice is doing it once. */
  lemma OmitUndefinedIsInvisible(passed: JsObject)
    ensures forall k :: Get(OmitUndefinedOptions(passed), k) == Get(passed, k)
    ensures forall k :: k in OmitUndefinedOptions(passed) ==> OmitUndefinedOptions(passed)[k] != Undefined
    ensures OmitUndefinedOptions(OmitUndefinedOptions(passed)) == OmitUndefinedOptions(passed)
  {
  }

  /** The defaults that do not depend on the caller's options. */
  const FixedDefaults: JsObject := map[
    "message" := Str(DefaultMessage),
    "requestPropertyName" := Str("rateLimit"),
    "requestWasSuccessful" := Function("statusBelow400"),
    "skip" := Function("neverSkip"),
    "keyGenerator" := Function("requestIp"),
    "handler" := Function("sendTooManyRequests"),
    "onLimitReached" := Function("doNothing"),
    "max" := Num(5),
    "skipSuccessfulRequests" := Bool(false),
    "skipFailedRequests" := Bool(false),
    "statusCode" := Num(429),
    "windowMs" := Num(60 * 1000)
  ]

  /**
   The default configuration. The header switches default to the deprecated
   `headers` and `draft_polli_ratelimit_headers` options of the caller, or to
   `true` and `false` when those are nullish.
   */
  function Defaults(passed: JsObject): (d: JsObject)
    ensures "store" !in d
    ensures "legacyHeaders" in d && d["legacyHeaders"] == if Nullish(Get(passed, "headers")) then Bool(true) else Get(passed, "headers")
    ensures "standardHeaders" in d
            && d["standardHeaders"] == if Nullish(Get(passed, "draft_polli_ratelimit_headers")) then Bool(false) else Get(passed, "draft_polli_ratelimit_headers")
    ensures forall k :: k != "legacyHeaders" && k != "standardHeaders" ==> Get(d, k) == Get(FixedDefaults, k)
  {
    FixedDefaults["legacyHeaders" := Coalesce(Get(passed, "headers"), Bool(true))]
                 ["standardHeaders" := Coalesce(Get(passed, "draft_polli_ratelimit_headers"), Bool(false))]
  }

  /** A fresh in-memory store and a promisified legacy store both have the store interface. */
  lemma BuiltInStoresValid()
    ensures IsValidStore(NewMemoryStore) && !IsLegacyStore(NewMemoryStore)
    ensures IsValidStore(PromisifiedStore) && !IsLegacyStore(PromisifiedStore)
  {
  }

  /** The store the configuration ends up with: the supplied one (or a fresh in-memory one), promisified. */
  function ChosenStore(given: JsObject): (r: JsValue)
    ensures !Nullish(r) && !IsLegacyStore(r)
    ensures Nullish(Get(given, "store")) ==> r == NewMemoryStore
    ensures !Nullish(Get(given, "store")) && !IsLegacyStore(Get(given, "store")) ==> r == Get(given, "store")
    ensures !Nullish(Get(given, "store")) && IsLegacyStore(Get(given, "store")) ==> r == PromisifiedStore
  {
    PromisifyStore(Coalesce(Get(given, "store"), NewMemoryStore))
  }

  /** `Object.assign(Object.assign(defaults, given), {store})`: later sources win. */
  function Assign(defaults: JsObject, given: JsObject, store: JsValue): (config: JsObject)
    ensures forall k :: k in config <==> k in defaults || k in given || k == "store"
    ensures config["store"] == store
    ensures forall k :: k in given && k != "store" ==> config[k] == given[k]
    ensures forall k :: k in defaults && k !in given && k != "store" ==> config[k] == defaults[k]
  {
    defaults + given + map["store" := store]
  }

  /** The value option `k` takes: the caller's value unless it is `undefined`, else the default. */
  function Effective(passed: JsObject, k: string): JsValue
  {
    if Get(passed, k) != Undefined then Get(passed, k) else Get(Defaults(passed), k)
  }

  /**
   The complete configuration: the defaults, overridden by every option the
   caller gave a defined value, and finally the chosen store.
   */
  function Configure(passed: JsObject): (config: JsObject)
    ensures forall k :: k in config <==> k in Defaults(passed) || k == "store" || (k in passed && passed[k] != Undefined)
    ensures forall k :: k != "store" ==> Get(config, k) == Effective(passed, k)
    ensures "store" in config && !Nullish(config["store"]) && !IsLegacyStore(config["store"])
    ensures var s := Get(passed, "store");
            && (Nullish(s) ==> config["store"] == NewMemoryStore)
            && (!Nullish(s) && !IsLegacyStore(s) ==> config["store"] == s)
            && (!Nullish(s) && IsLegacyStore(s) ==> config["store"] == PromisifiedStore)
  {
    var given := OmitUndefinedOptions(passed);
    Assign(Defaults(passed), given, ChosenStore(given))
  }

  /** The store option is acceptable: absent, a legacy store, or one with the store interface. */
  predicate StoreAccepted(passed: JsObject)
  {
    var s := Get(passed, "store");
    Nullish(s) || IsLegacyStore(s) || IsValidStore(s)
  }

  /** Builds the complete configuration, or fails with `InvalidStore` when its store lacks the store interface. */
  function ParseOptions(passed: JsObject): (r: Result<JsObject, ConfigError>)
    ensures r.Success? <==> StoreAccepted(passed)
    ensures r.Success? ==> r.value == Configure(passed)
    ensures r.Success? ==>
              && "store" in r.value && !Nullish(r.value["store"])
              && IsValidStore(r.value["store"]) && !IsLegacyStore(r.value["store"])
    ensures Nullish(Get(passed, "store")) ==> r.Success? && r.value["store"] == NewMemoryStore
  {
    var config := Configure(passed);
    BuiltInStoresValid();
    if IsValidStore(config["store"]) then Success(config) else Failure(InvalidStore)
  }

  /** Parsing sees the options only through property reads. */
  lemma SameReadsSameParse(a: JsObject, b: JsObject)
    requires forall k :: Get(a, k) == Get(b, k)
    ensures ParseOptions(a) == ParseOptions(b)
  {
    assert OmitUndefinedOptions(a) == OmitUndefinedOptions(b) by {
      forall k
        ensures k in OmitUndefinedOptions(a) <==> k in OmitUndefinedOptions(b)
        ensures k in OmitUndefinedOptions(a) ==> OmitUndefinedOptions(a)[k] == OmitUndefinedOptions(b)[k]
      {
        assert Get(a, k) == Get(b, k);
      }
    }
    assert Defaults(a) == Defaults(b) by {
      assert Get(a, "headers") == Get(b, "headers");
      assert Get(a, "draft_polli_ratelimit_headers") == Get(b, "draft_polli_ratelimit_headers");
    }
  }

  /**
   Passing `undefined` for an option parses exactly like not passing it, and
   parsing the options with their `undefined` entries dropped gives the same
   result as parsing them as given.
   */
  lemma UndefinedOptionIsAbsent(passed: JsObject, k: string)
    ensures ParseOptions(passed[k := Undefined]) == ParseOptions(passed - {k})
    ensures ParseOptions(OmitUndefinedOptions(passed)) == ParseOptions(passed)
  {
    forall k' ensures Get(passed[k := Undefined], k') == Get(passed - {k}, k') {
    }
    SameReadsSameParse(passed[k := Undefined], passed - {k});
    OmitUndefinedIsInvisible(passed);
    SameReadsSameParse(OmitUndefinedOptions(passed), passed);
  }

  /** Reading option `k` of the parsed configuration yields its effective value. */
  lemma ParsedOption(passed: JsObject, k: string)
    requires StoreAccepted(passed)
    requires k != "store"
    ensures Get(ParseOptions(passed).value, k) == Effective(passed, k)
  {
  }

  /** With no options at all, a fresh in-memory store is used and the quota is five hits. */
  lemma DefaultQuotaAndStore()
    ensures ParseOptions(map[]).Success?
    ensures Get(ParseOptions(map[]).value, "store") == NewMemoryStore
    ensures Get(ParseOptions(map[]).value, "max") == Num(5)
  {
    assert Get(map[], "store") == Undefined;
    assert Effective(map[], "max") == Num(5);
    ParsedOption(map[], "max");
  }

  /** The typed settings the middleware reads from a configuration. */
  datatype Settings = Settings(
    windowMs: int,
    legacyHeaders: bool,
    standardHeaders: bool,
    skipFailedRequests: bool,
    skipSuccessfulRequests: bool)

  /** Reads the settings, testing the switches for truthiness; `None` when the window length is not a number. */
  function SettingsOf(config: JsObject): (r: Option<Settings>)
    ensures r.Some? <==> Get(config, "windowMs").Num?
    ensures r.Some? ==> r.value.legacyHeaders == Truthy(Get(config, "legacyHeaders"))
    ensures r.Some? ==> r.value.standardHeaders == Truthy(Get(config, "standardHeaders"))
    ensures r.Some? ==> Get(config, "windowMs") == Num(r.value.windowMs)
    ensures r.Some? ==> r.value.skipFailedRequests == Truthy(Get(config, "skipFailedRequests"))
    ensures r.Some? ==> r.value.skipSuccessfulRequests == Truthy(Get(config, "skipSuccessfulRequests"))
  {
    var windowMs := Get(config, "windowMs");
    if windowMs.Num? then
      Some(Settings(
             windowMs.n,
             Truthy(Get(config, "legacyHeaders")),
             Truthy(Get(config, "standardHeaders")),
             Truthy(Get(config, "skipFailedRequests")),
             Truthy(Get(config, "skipSuccessfulRequests"))))
    else None
  }

  /** Reading the settings of a parsed configuration sees the effective option values. */
  lemma ParsedSettings(passed: JsObject)
    requires StoreAccepted(passed)
    ensures SettingsOf(ParseOptions(passed).value) ==
              if Effective(passed, "windowMs").Num? then
                Some(Settings(
                       Effective(passed, "windowMs").n,
                       Truthy(Effective(passed, "legacyHeaders")),
                       Truthy(Effective(passed, "standardHeaders")),
                       Truthy(Effective(passed, "skipFailedRequests")),
                       Truthy(Effective(passed, "skipSuccessfulRequests"))))
              else None
  {
    ParsedOption(passed, "windowMs");
    ParsedOption(passed, "legacyHeaders");
    ParsedOption(passed, "standardHeaders");
    ParsedOption(passed, "skipFailedRequests");
    ParsedOption(passed, "skipSuccessfulRequests");
  }

  /** The effective values of the options the settings read, when the caller passes none. */
  lemma EffectiveDefaults()
    ensures Effective(map[], "windowMs") == Num(60000)
    ensures Effective(map[], "statusCode") == Num(429)
    ensures Effective(map[], "legacyHeaders") == Bool(true)
    ensures Effective(map[], "standardHeaders") == Bool(false)
    ensures Effective(map[], "skipFailedRequests") == Bool(false)
    ensures Effective(map[], "skipSuccessfulRequests") == Bool(false)
  {
  }

  /** The settings of an all-default configuration: one-minute window, legacy headers only, no compensation. */
  lemma DefaultSettings()
    ensures ParseOptions(map[]).Success?
    ensures SettingsOf(ParseOptions(map[]).value) == Some(Settings(60000, true, false, false, false))
  {
    assert Get(map[], "store") == Undefined;
    EffectiveDefaults();
    ParsedSettings(map[]);
  }

  /** The options of the demo application's public limiter: a 30-second window, a quota of 60, standardized headers on. */
  const PublicLimiterOptions: JsObject :=
    map["windowMs" := Num(30000), "max" := Num(60), "standardHeaders" := Bool(true), "keyGenerator" := Function("demoRequestIp")]

  /** The effective values of the header switches for the demo options: both families on. */
  lemma EffectivePublicLimiterHeaders()
    ensures Effective(PublicLimiterOptions, "legacyHeaders") == Bool(true)
    ensures Effective(PublicLimiterOptions, "standardHeaders") == Bool(true)
  {
  }

  /** The effective values of the other options the settings read, for the demo options. */
  lemma EffectivePublicLimiter()
    ensures Effective(PublicLimiterOptions, "windowMs") == Num(30000)
    ensures Effective(PublicLimiterOptions, "statusCode") == Num(429)
    ensures Effective(PublicLimiterOptions, "skipFailedRequests") == Bool(false)
    ensures Effective(PublicLimiterOptions, "skipSuccessfulRequests") == Bool(false)
  {
  }

  /** The settings of the demo's public limiter. */
  const PublicLimiterSettings: Settings := Settings(30000, true, true, false, false)

  /** The demo options keep their window and add the standardized headers to the default legacy ones. */
  lemma PublicLimiterParsed()
    ensures ParseOptions(PublicLimiterOptions).Success?
    ensures SettingsOf(ParseOptions(PublicLimiterOptions).value) == Some(PublicLimiterSettings)
  {
    assert Get(PublicLimiterOptions, "store") == Undefined;
    EffectivePublicLimiter();
    EffectivePublicLimiterHeaders();
    ParsedSettings(PublicLimiterOptions);
  }

  /** The demo options set a quota of 60 hits per window. */
  lemma PublicLimiterQuota()
    ensures ParseOptions(PublicLimiterOptions).Success?
    ensures Get(ParseOptions(PublicLimiterOptions).value, "max") == Num(60)
  {
    assert Get(PublicLimiterOptions, "store") == Undefined;
    assert Effective(PublicLimiterOptions, "max") == Num(60);
    ParsedOption(PublicLimiterOptions, "max");
  }
}

=== FILE: wrappers.dfy ===
/** Failure-compatible result types shared by the rate-limiter modules. */
module Wrappers {

  /** A value that may be missing (a JavaScript `undefined`). */
  datatype Option<+T> = None | Some(value: T)

  /** Either a computed value or the error the source would throw. */
  datatype Result<+R, +E> = Success(value: R) | Failure(error: E)
}
